=== FILE: README.md ===
# Time-tracking extension: session tracker, usage ledger, sync and backend merge

A Dafny model of the core of a browser extension that measures how long a
user spends on each web domain, and of the small backend it reports to.

- **Background** (`background.dfy`): the service worker's session tracker.
  It is either idle (`current` is null) or tracking `{tabId, domain,
  startTime}`. Closing a session adds `Math.round(elapsedMs / 1000)`
  seconds to `usage[dateKey][domain]`. For an integer `elapsedMs` that is
  `(elapsedMs + 500) / 1000` with floor division, so no floating point is
  involved. Duplicate tab events are ignored. A genuine change closes the
  old session and opens a new one. `flushToBackend` posts the whole ledger
  and clears it only when the response is ok. The persisted storage keys
  are the fields of class `Tracker`. Pure specification functions
  (`Stopped`, `Started`, `TabChanged`) over a `TrackerState` value are what
  the methods are proved against and what the lemmas about event sequences
  use.
- **Ledgers** (`ledger.dfy`): the ledger `date → domain → seconds`, its
  update, and a ghost `Total` (the sum of all entries). `Total` is used to
  state that time is neither lost nor counted twice.
- **Server** (`server.dfy`): `POST /api/usage` validates the payload,
  registers the user at most once, and merges each `(date, domain,
  seconds)` triple into a flat record list. A merge increments the first
  matching record or appends a new one. `GET /api/dashboard` starts seven
  day buckets at zero. It then adds each of the user's in-window records to
  exactly one of productive, unproductive or neutral. Class `Db` holds the
  database file's `users` and `usage`.
- **Popup** (`popup.dfy`): `formatSeconds`, the loop that splits today's
  seconds into three categories, the sort of the per-site rows (largest
  first), and the comma-list parsing of the list editors.
- **Classification** (`classification.dfy`): removing one leading `www.`,
  the default lists, and productive-before-unproductive classification.

Inputs that stand for the environment:
- the clock readings (`now`, `closeAt`, `openAt`) and the date keys;
- the hostname that `new URL(url)` yields (`None` when it throws);
- the fresh identifier `crypto.randomUUID()` would generate;
- the outcome of `fetch` (an HTTP status, or an exception);
- the seven window keys of the dashboard;
- the result of `Number(value)` for each posted value.

Behaviour of the code worth knowing:
- `flushToBackend` clears the whole ledger on success, not only the part
  that was sent.
- A url that parses to an empty hostname (a `file:` url) opens a session
  with domain `""`. `stopAndRecord` never credits such a session, so that
  time is dropped rather than filed under `unknown`
  (`EmptyHostIsNeverCredited`).
- The dashboard classifies with the hard-coded default lists, not with the
  user's edited lists.
- A session that spans midnight is credited entirely to the date key of
  the moment it is closed.
- `handleTabChange` reads the clock twice: once when it closes the old
  session and once when it opens the new one. The time between the two
  readings is credited to no session.

## Model

| member | source | states |
|---|---|---|
| `Ledgers.AddSeconds` | background.js:47-48 | only the `(date, domain)` entry changes, by exactly `secs`; missing date and domain entries are created and read as 0 before |
| `Ledgers.TotalAddSeconds` | background.js:47-48 | adding to one entry grows the ledger's total by exactly that many seconds |
| `Ledgers.TotalUpdate` | background.js:47-48 | replacing one date's map changes the total by the difference of the two maps' sums |
| `Ledgers.TotalEmpty` | background.js:103 | the cleared ledger `{}` holds no seconds |
| `Classification.StripWww` | background.js:19 | removes exactly one leading `www.` (the input is `www.` + result), any other host is unchanged |
| `Classification.StripWwwOnce` | server.js:77 | only one `www.` is removed: `www.` + d strips to d, whatever d is |
| `Classification.Classify` | popup.js:38-42 | productive iff in the productive list; unproductive iff not productive and in the unproductive list; neutral iff in neither |
| `Background.GetDomainFromUrl` | background.js:16-23 | an unparsable url gives `"unknown"`; otherwise the hostname with one leading `www.` removed |
| `Background.RoundedSeconds` | background.js:44-45 | `Math.round(ms/1000)`: the nearest whole second, halves rounded up (`1000r - 500 <= ms < 1000r + 500`) |
| `Background.Stopped` | background.js:38-53 | session always cleared; a session with a domain and a start time adds its rounded duration to today's entry for its domain and to the total; every other entry is unchanged |
| `Background.Started` | background.js:55-60 | a missing tab or url leaves the state as it is; otherwise the session becomes `{tab.id, domain, now}` and the ledger is untouched |
| `Background.TabChanged` | background.js:71-84 | a missing tab or an event with the tracked tab id and domain changes nothing; otherwise close then open; the total grows by exactly the closed session's credit |
| `Background.StopTwiceIsStopOnce` | background.js:135-138 | repeated focus loss: stopping when already stopped changes neither ledger nor session |
| `Background.DuplicateTabEventIsIdempotent` | background.js:76-79 | delivering the same tab event twice has the same effect as delivering it once |
| `Background.EmptyHostIsNeverCredited` | background.js:42 | a session on an empty hostname is opened but closing it adds nothing to the ledger |
| `Background.TabDomain` | background.js:75 | a tab without a url, or whose url does not parse, gives `"unknown"`; otherwise its hostname with one leading `www.` removed |
| `Background.Credit` | background.js:42-45 | a session with no domain or no start time earns 0; any other earns its duration rounded to the nearest second |
| `Background.StepCredits` | background.js:71-84 | one tab change or focus loss leaves open the session `NextSession` names and grows the total by exactly what the closed session earns |
| `Background.ReplayCreditsEachSessionOnce` | background.js:38-144 | over any run of tab changes (missing, duplicate, url-less and empty-host tabs included) and focus losses, starting idle or not, the ledger total grows by exactly the sum of what the closed sessions earn, and the open session is the one the events determine |
| `Background.SwitchToYoutube` | background.js:71-84 | switching from a github.com session started at 1 s to youtube.com at 126 s credits 125 s to github.com and opens youtube.com |
| `Background.CloseYoutube` | background.js:38-53 | closing the youtube.com session 90 s later credits 90 s and leaves no session |
| `Background.GithubThenYoutube` | background.js:38-84 | 125 s on github.com, a switch to www.youtube.com, 90 s, then focus loss gives `{github.com: 125, youtube.com: 90}` and no session |
| `Background.Tracker.constructor` | background.js:25-35 | storage before the first run, as `ensureDefaults` finds it: no identity, no lists, empty ledger, no session |
| `Background.Tracker.EnsureDefaults` | background.js:25-35 | a missing identity is set once and an existing one is never regenerated; missing lists get the defaults; ledger and session untouched |
| `Background.Tracker.StopAndRecord` | background.js:38-53 | the new ledger and session are `Stopped` of the old ones; identity and lists unchanged |
| `Background.Tracker.StartTracking` | background.js:55-60 | the new state is `Started` of the old one; identity and lists unchanged |
| `Background.Tracker.HandleTabChange` | background.js:71-84 | the new state is `TabChanged` of the old one (close via `StopAndRecord`, open via `StartTracking`) |
| `Background.Tracker.OnFocusChanged` | background.js:135-144 | `WINDOW_ID_NONE` closes the session; any other window hands its active tab to the tab-change rule |
| `Background.Tracker.FlushToBackend` | background.js:87-111 | no request without an identity or with an empty ledger; the request carries the whole ledger; the ledger becomes `{}` only on a 2xx response and is kept on a failed status or an exception; seconds kept plus seconds acknowledged equal seconds before |
| `Server.ToSeconds` | server.js:45 | `Number(v)`, or 0 when that is NaN: a numeric value counts as itself, NaN as 0 |
| `Server.DayTriples` | server.js:43-45 | the inner loop visits each domain of a date in order, with its converted seconds |
| `Server.FirstMatch` | server.js:46 | `find`: the index of the first record with the same user, date and domain, or the list length when there is none |
| `Server.MergeOne` | server.js:46-51 | either the record list keeps its length (an increment in place) or exactly the new record is pushed |
| `Server.MergeOneSpec` | server.js:46-51 | the key's durable seconds grow by `seconds` (increment or append); every other key's are unchanged; existing records keep their index and key; key uniqueness is preserved |
| `Server.LookupAfterUpdate` | server.js:46-48 | incrementing the first matching record raises that key's durable seconds and no other key's |
| `Server.LookupAfterAppend` | server.js:46-50 | appending a record for a key with no match gives that key the record's seconds and changes no other key |
| `Server.MergeAll` | server.js:42-53 | the record list grows by at most one record per triple and never shrinks |
| `Server.MergeAllConcat` | server.js:42-44 | merging date by date is merging the concatenated triples |
| `Server.MergeAllIsAdditive` | server.js:42-53 | after a merge, each key of the poster holds its old seconds plus the payload's seconds for it; other users' keys are unchanged |
| `Server.MergeTwiceDoubles` | server.js:42-53 | ingesting the same payload twice adds twice its contribution to every key |
| `Server.MergeAllKeepsRecords` | server.js:46-50 | existing records keep index and key; other users' records are untouched; appended records belong to the poster; unique keys stay unique |
| `Server.OthersOfAgree` | server.js:46-50 | two record lists that agree on every other user's record, index by index, and differ only by appended records of the poster have the same other-user records |
| `Server.MergeAllKeepsOthers` | server.js:42-53 | the list of other users' records is exactly the same before and after a merge |
| `Server.Register` | server.js:40 | the user is added only when absent: a duplicate-free list stays duplicate-free and gains exactly that user |
| `Server.DashboardCategory` | server.js:63-80 | productive iff the domain without `www.` is in the hard-coded productive list; unproductive iff not productive and in the hard-coded unproductive list |
| `Server.BucketsPartitionDay` | server.js:77-81 | for each day, productive + unproductive + neutral equals the user's total seconds for that date |
| `Server.AddTo` | server.js:81 | one bucket grows by the seconds, the other two are unchanged |
| `Server.BucketsOfSnoc` | server.js:74-81 | one more record adds its seconds to its category on its own date for its own user; other users' and dates' buckets are unchanged |
| `Server.Db.constructor` | server.js:22 | the fallback database: no users and no usage records |
| `Server.Db.PostUsage` | server.js:34-56 | a missing `userId` or `usage` answers 400 and leaves the db unchanged; otherwise 200, user registered, every triple merged in order |
| `Server.Db.MergePayload` | server.js:42-53 | the stored records become the merge of every triple of the payload, date by date, in order |
| `Server.Db.MergeTriple` | server.js:46-51 | one triple merged by find-then-increment-or-push is `MergeOne` of the old records |
| `Server.Db.MergeDay` | server.js:44-52 | one date's domains merged in order by increment-or-append |
| `Server.Db.Dashboard` | server.js:58-85 | a missing `userId` is rejected; otherwise exactly the window's keys, each holding the user's per-category sums for that date, starting from zero; seven distinct window keys give exactly seven days |
| `Server.ZeroWindow` | server.js:66-73 | every key of the window, and no other, starts with all three buckets at zero |
| `Server.TallyUser` | server.js:74-83 | after the pass, each day holds the buckets of the user's records dated that day; the keys are unchanged |
| `Popup.JsRem` | popup.js:10-11 | JavaScript `%` on a non-negative dividend: the remainder is in range and completes the division |
| `Popup.HoursMinutesSeconds` | popup.js:9-11 | `h*3600 + m*60 + sec = s` with `m < 60` and `sec < 60`, for `s >= 0` |
| `Popup.FormatSeconds` | popup.js:8-15 | `"Xh Ym"` exactly from an hour on (seconds dropped); `"Ym Zs"` from a minute to an hour; `"Zs"` below a minute |
| `Popup.ItemOf` | popup.js:38-43 | the row keeps the entry's seconds, drops one leading `www.` from its domain, and is productive iff that domain is in the productive list, unproductive iff only in the unproductive list |
| `Popup.ItemsOf` | popup.js:37-43 | one row per entry of today's data |
| `Popup.ItemsOfAt` | popup.js:37-43 | row i is entry i's domain without `www.`, its seconds and its category |
| `Popup.ClassifyEntry` | popup.js:38-43 | the loop body: the row is the entry's domain without `www.`, its seconds and its category, and only that category's accumulator grows, by the entry's seconds |
| `Popup.CategoriesPartitionTotal` | popup.js:39-45 | every row lands in exactly one category: the three category shares add up to the total of today's seconds |
| `Popup.ClassifyToday` | popup.js:35-45 | each accumulator is its category's share of the rows; the three add up to the total of today's seconds |
| `Popup.SwapAdjacent` | popup.js:48 | exchanges two neighbouring rows; the rows as a multiset are unchanged |
| `Popup.InsertDown` | popup.js:48 | moving one row down into a non-increasing prefix leaves a longer non-increasing prefix holding the same rows, and the rows after it untouched |
| `Popup.SortBySecsDescending` | popup.js:48 | after sorting, rows are non-increasing in seconds and a permutation of the input |
| `Popup.TodayView` | popup.js:35-48 | total is the sum of today's seconds; the displayed rows are sorted largest first and are a permutation of the classified rows |
| `Popup.LeadingSpace` | popup.js:57 | the length of the white-space run that starts the string, and no more |
| `Popup.TrailingSpaceStart` | popup.js:57 | where the white-space run that ends a slice begins, and no earlier |
| `Popup.Trim` | popup.js:57 | the result neither starts nor ends with white space |
| `Popup.TrimIsInfix` | popup.js:57 | the trim is the infix of the input left after removing white space at both ends |
| `Popup.TrimKeepsOut` | popup.js:57 | trimming never brings in a character the input lacks |
| `Popup.TrimTrimmed` | popup.js:57 | trimming an already trimmed string changes nothing |
| `Popup.Split` | popup.js:57 | `split(',')`: at least one piece, none containing a comma |
| `Popup.JoinSplit` | popup.js:57 | joining the pieces with commas gives back the input |
| `Popup.SplitAfter` | popup.js:57 | a comma after comma-free text splits off exactly that text |
| `Popup.SplitWhole` | popup.js:57 | comma-free text is one piece |
| `Popup.JoinLength` | popup.js:54-55 | the length of `join(',')` is the pieces' total plus one less than their number; no pieces give the empty string |
| `Popup.JoinPieces` | popup.js:54-55 | `join(',')` holds piece i exactly at the pieces before it plus one separator each, and the separator sits just before every piece but the first; with `JoinLength`, nothing else is in it |
| `Popup.SplitJoin` | popup.js:54-57 | splitting the comma-join of comma-free entries gives the entries back |
| `Popup.TrimAndDropEmpty` | popup.js:57 | kept entries are non-empty and trimmed |
| `Popup.KeptComesFromPiece` | popup.js:57 | every kept entry is the trim of some piece |
| `Popup.PieceIsKept` | popup.js:57 | every piece whose trim is non-empty is kept |
| `Popup.ParseList` | popup.js:57-58 | entries are non-empty and trimmed |
| `Popup.ParsedEntryFromPiece` | popup.js:57-58 | each parsed entry is the trim of one comma-separated piece and contains no comma |
| `Popup.PieceIsParsed` | popup.js:57-58 | every comma-separated piece with a non-empty trim becomes an entry |
| `Popup.KeepsCleanPieces` | popup.js:57 | non-empty trimmed pieces pass the trim-and-filter step unchanged |
| `Popup.ParseJoinedList` | popup.js:54-58 | saving the editors unedited gives back each list when its entries are non-empty, trimmed and comma-free |

## Left out

- Browser plumbing is not modelled: the storage get/set promise wrappers,
  `tabs.query`/`tabs.get`, alarms, and the `onInstalled`, `onActivated`,
  `onUpdated` and `onMessage` listeners. `onActivated` and `onUpdated` only
  hand a tab to `HandleTabChange`. Persisted keys are class fields and
  events are method calls.
- Asynchronous interleaving is not modelled: each handler is atomic. The
  source serialises nothing, so the lost-update race between two tab events
  and the sync-versus-update race, where a clear drops seconds added during
  the request, exist in the source and are not captured.
- `fetch` is not modelled; its outcome is an input (`FetchOutcome`).
  `Date.now`, `toISOString().slice(0,10)` and the dashboard's `setDate`
  arithmetic are inputs too.
- `crypto.randomUUID` and the `Math.random` fallback are not modelled; the
  fresh identifier is an input, required non-empty as both generators' results are.
- `new URL` parsing is not modelled; its hostname, or its failure, is part
  of `Tab`.
- Express, CORS, body-parser, the `db.json` reads and writes, static file
  serving and `app.listen` are not modelled. `readDB`'s fallback is the `Db`
  constructor.
- DOM updates, `alert`, `insertAdjacentHTML` and string templates are not
  modelled. `FormatSeconds` returns which of the three shapes is shown and
  its numbers, not the text.
- Server.Db.Dashboard: returns a map, so the order of the `days` keys (earliest
  first) is carried only by the `dayKeys` input.
- Server.Db.PostUsage: a posted date whose value is not an object is not
  modelled. `null` would make `Object.keys` throw.
- Server.ToSeconds: the conversion of strings and other JSON values by
  `Number` is abstracted into `JsonSeconds`. Fractional seconds are not
  modelled.
- Popup.SortBySecsDescending: does not state that the sort is stable, as
  JavaScript's `Array.prototype.sort` is.
- Popup.FormatSeconds: its properties are stated for non-negative seconds.
  Negative seconds arise only when the clock goes backwards; the function
  computes what the source computes for them, but nothing is proved.
- Fractional seconds in `formatSeconds` (its `Math.round`) are not
  modelled: the popup formats only values from the local ledger, which
  gains nothing but `Math.round` results.

=== FILE: background.dfy ===
/**
 * The extension's service worker: a session tracker that is either idle
 * (`current` is null) or tracking one tab's domain since a start time, and
 * that credits each closed session's rounded seconds to the usage ledger;
 * plus the sync rule that sends the ledger to the backend and clears it
 * only on success.
 *
 * The clock, the date key, the hostname a url parses to and the outcome of
 * the network request are inputs. Every handler runs to completion before
 * the next one starts.
 */
module Background {
  import opened Wrappers
  import opened Ledgers
  import Classification

  /** `chrome.windows.WINDOW_ID_NONE`: no browser window has focus. */
  const WINDOW_ID_NONE: int := -1

  datatype Session = Session(tabId: int, domain: string, startTime: int)

  /**
   * A browser tab: its id, its url ("" when the tab has none) and the
   * hostname `new URL(url)` yields for a non-empty url (None when it throws).
   */
  datatype Tab = Tab(id: int, url: string, host: Option<string>)

  /** `getDomainFromUrl`: the hostname without one leading "www.", or "unknown" when the url cannot be parsed. */
  function GetDomainFromUrl(host: Option<string>): (d: string)
    ensures host.None? ==> d == "unknown"
    ensures host.Some? && Classification.HasWwwPrefix(host.value) ==> host.value == "www." + d
    ensures host.Some? && !Classification.HasWwwPrefix(host.value) ==> d == host.value
  {
    match host
    case None => "unknown"
    case Some(h) => Classification.StripWww(h)
  }

  /** The domain of `getDomainFromUrl(tab.url || '')`: an empty url does not parse. */
  function TabDomain(tab: Tab): (d: string)
    ensures tab.url == "" || tab.host.None? ==> d == "unknown"
    ensures tab.url != "" && tab.host.Some? ==> d == Classification.StripWww(tab.host.value)
  {
    GetDomainFromUrl(if tab.url == "" then None else tab.host)
  }

  /** `Math.round(elapsedMs / 1000)`: the nearest whole second, halves rounded up. */
  function RoundedSeconds(elapsedMs: int): (secs: int)
    ensures 1000 * secs - 500 <= elapsedMs < 1000 * secs + 500
  {
    (elapsedMs + 500) / 1000
  }

  /** The part of the persisted state the tracker changes. */
  datatype TrackerState = TrackerState(usage: Ledger, current: Option<Session>)

  /** `current && current.domain && current.startTime`: an empty domain or a zero start time is falsy. */
  predicate Recordable(current: Option<Session>)
  {
    current.Some? && current.value.domain != "" && current.value.startTime != 0
  }

  /** The seconds that closing `current` at time `now` credits to the ledger. */
  function Credit(current: Option<Session>, now: int): (secs: int)
    ensures !Recordable(current) ==> secs == 0
    ensures Recordable(current) ==>
      1000 * secs - 500 <= now - current.value.startTime < 1000 * secs + 500
  {
    if Recordable(current) then RoundedSeconds(now - current.value.startTime) else 0
  }

  /** `stopAndRecord`: close the session, crediting its rounded duration to today's entry for its domain. */
  function Stopped(s: TrackerState, now: int, dateKey: string): (r: TrackerState)
    ensures r.current == None
    ensures Recordable(s.current) ==>
      Get(r.usage, dateKey, s.current.value.domain) == Get(s.usage, dateKey, s.current.value.domain) + Credit(s.current, now)
    ensures forall d, dom :: (!Recordable(s.current) || d != dateKey || dom != s.current.value.domain) ==>
      Get(r.usage, d, dom) == Get(s.usage, d, dom)
    ensures !Recordable(s.current) ==> r.usage == s.usage
    ensures Total(r.usage) == Total(s.usage) + Credit(s.current, now)
  {
    if Recordable(s.current) then
      TotalAddSeconds(s.usage, dateKey, s.current.value.domain, Credit(s.current, now));
      TrackerState(AddSeconds(s.usage, dateKey, s.current.value.domain, Credit(s.current, now)), None)
    else
      TrackerState(s.usage, None)
  }

  /** `startTracking`: open a session on the tab unless the tab or its url is missing. */
  function Started(s: TrackerState, tab: Option<Tab>, now: int): (r: TrackerState)
    ensures r.usage == s.usage
    ensures (tab.None? || tab.value.url == "") ==> r.current == s.current
    ensures tab.Some? && tab.value.url != "" ==> r.current == Some(Session(tab.value.id, TabDomain(tab.value), now))
  {
    if tab.None? || tab.value.url == "" then s
    else s.(current := Some(Session(tab.value.id, TabDomain(tab.value), now)))
  }

  /** The event names the tab and domain already being tracked. */
  predicate IsDuplicate(current: Option<Session>, tab: Tab)
  {
    current.Some? && current.value.domain == TabDomain(tab) && current.value.tabId == tab.id
  }

  /**
   * `handleTabChange`: a missing tab or a duplicate event changes nothing;
   * otherwise close the session (reading the clock at `closeAt`) and open
   * one on the new tab (reading it again at `openAt`).
   */
  function TabChanged(s: TrackerState, tab: Option<Tab>, closeAt: int, openAt: int, dateKey: string): (r: TrackerState)
    ensures tab.None? || IsDuplicate(s.current, tab.value) ==> r == s
    ensures tab.Some? && !IsDuplicate(s.current, tab.value) ==>
      r == Started(Stopped(s, closeAt, dateKey), tab, openAt)
    ensures Total(r.usage) == Total(s.usage) +
      (if tab.None? || IsDuplicate(s.current, tab.value) then 0 else Credit(s.current, closeAt))
  {
    if tab.None? || IsDuplicate(s.current, tab.value) then s
    else Started(Stopped(s, closeAt, dateKey), tab, openAt)
  }

  /** Repeated focus loss: once idle, closing again changes nothing. */
  lemma StopTwiceIsStopOnce(s: TrackerState, now1: int, date1: string, now2: int, date2: string)
    ensures Stopped(Stopped(s, now1, date1), now2, date2) == Stopped(s, now1, date1)
  {
  }

  /** Delivering the same tab event twice has the effect of delivering it once. */
  lemma DuplicateTabEventIsIdempotent(s: TrackerState, tab: Tab, closeAt: int, openAt: int, dateKey: string,
                                      closeAt': int, openAt': int, dateKey': string)
    ensures var once := TabChanged(s, Some(tab), closeAt, openAt, dateKey);
            TabChanged(once, Some(tab), closeAt', openAt', dateKey') == once
  {
  }

  /**
   * A url that parses to an empty hostname (a `file:` url, say) opens a
   * session with domain "", and closing that session credits nothing.
   */
  lemma EmptyHostIsNeverCredited(s: TrackerState, tab: Tab, closeAt: int, openAt: int, dateKey: string, later: int, laterKey: string)
    requires tab.url != "" && tab.host == Some("")
    requires !IsDuplicate(s.current, tab)
    ensures var started := TabChanged(s, Some(tab), closeAt, openAt, dateKey);
      started.current == Some(Session(tab.id, "", openAt)) &&
      Stopped(started, later, laterKey).usage == started.usage
  {
  }

  /**
   * An event the tracker handles: a tab change (`onActivated`, `onUpdated`,
   * or focus regained, with the tab it names or none) with its two clock
   * readings and the date key of the close, or a loss of window focus.
   */
  datatype Event =
    | TabSwitch(tab: Option<Tab>, closeAt: int, openAt: int, dateKey: string)
    | FocusLost(now: int, dateKey: string)

  /** Handling one event. */
  function Step(s: TrackerState, e: Event): TrackerState
  {
    match e
    case TabSwitch(tab, closeAt, openAt, dateKey) => TabChanged(s, tab, closeAt, openAt, dateKey)
    case FocusLost(now, dateKey) => Stopped(s, now, dateKey)
  }

  /** The state after handling the events in order. */
  function Replay(s: TrackerState, evs: seq<Event>): TrackerState
    decreases |evs|
  {
    if evs == [] then s
    else Step(Replay(s, evs[..|evs| - 1]), evs[|evs| - 1])
  }

  /**
   * The session open after an event, from the session open before it
   * alone: focus loss and a url-less tab leave none open, a missing tab or
   * a duplicate event keeps it, any other tab opens its own.
   */
  function NextSession(prev: Option<Session>, e: Event): Option<Session>
  {
    match e
    case FocusLost(_, _) => None
    case TabSwitch(tab, _, openAt, _) =>
      if tab.None? || IsDuplicate(prev, tab.value) then prev
      else if tab.value.url == "" then None
      else Some(Session(tab.value.id, TabDomain(tab.value), openAt))
  }

  /** The seconds the session open before an event earns when that event closes it. */
  function ClosingCredit(prev: Option<Session>, e: Event): int
  {
    match e
    case FocusLost(now, _) => Credit(prev, now)
    case TabSwitch(tab, closeAt, _, _) =>
      if tab.None? || IsDuplicate(prev, tab.value) then 0 else Credit(prev, closeAt)
  }

  /** The session open after the events, starting from `first`. */
  function SessionAfter(first: Option<Session>, evs: seq<Event>): Option<Session>
    decreases |evs|
  {
    if evs == [] then first
    else NextSession(SessionAfter(first, evs[..|evs| - 1]), evs[|evs| - 1])
  }

  /** The sum, over the sessions the events close, of what each one earns. */
  function SessionSeconds(first: Option<Session>, evs: seq<Event>): int
    decreases |evs|
  {
    if evs == [] then 0
    else
      var n := |evs| - 1;
      SessionSeconds(first, evs[..n]) + ClosingCredit(SessionAfter(first, evs[..n]), evs[n])
  }

  /**
   * No double counting: over any run of tab changes and focus losses,
   * starting idle or not, the ledger grows by exactly the sum of what the
   * closed sessions earn (each its rounded duration, or nothing when it
   * has no domain or start time), and the session left open is the one the
   * events determine.
   */
  lemma {:induction false} ReplayCreditsEachSessionOnce(s: TrackerState, evs: seq<Event>)
    ensures Replay(s, evs).current == SessionAfter(s.current, evs)
    ensures Total(Replay(s, evs).usage) == Total(s.usage) + SessionSeconds(s.current, evs)
    decreases |evs|
  {
    if evs != [] {
      var n := |evs| - 1;
      ReplayCreditsEachSessionOnce(s, evs[..n]);
      StepCredits(Replay(s, evs[..n]), evs[n]);
    }
  }

  /** One event moves the session as `NextSession` says and grows the total by its `ClosingCredit`. */
  lemma StepCredits(s: TrackerState, e: Event)
    ensures Step(s, e).current == NextSession(s.current, e)
    ensures Total(Step(s, e).usage) == Total(s.usage) + ClosingCredit(s.current, e)
  {
  }

  /** The ledger entries `flushToBackend` posts. */
  datatype Request = Request(userId: string, usage: Ledger)

  /** How the `fetch` call ended: a response with an HTTP status, or an exception. */
  datatype FetchOutcome = Responded(status: int) | Threw

  /** `resp.ok`: a status in the range 200-299. */
  predicate Succeeded(outcome: FetchOutcome)
  {
    outcome.Responded? && 200 <= outcome.status <= 299
  }

  /** The persisted state of the extension, one field per storage key. */
  class Tracker {
    /** The identity; "" stands for a missing value (both are falsy). */
    var userId: string
    /** The ledger; a missing `usage` key reads as `{}` wherever it is read. */
    var usage: Ledger
    var productiveList: Option<seq<string>>
    var unproductiveList: Option<seq<string>>
    /** The open session; a missing key and `null` both read as none. */
    var current: Option<Session>

    /** Storage before the extension's first run: every key missing. */
    constructor ()
      ensures userId == "" && usage == map[] && current == None
      ensures productiveList == None && unproductiveList == None
    {
      userId := "";
      usage := map[];
      productiveList := None;
      unproductiveList := None;
      current := None;
    }

    function State(): TrackerState
      reads this
    {
      TrackerState(usage, current)
    }

    /** `ensureDefaults`: fill in missing keys; an existing identity is never regenerated. */
    method EnsureDefaults(freshId: string)
      requires freshId != ""
      modifies this
      ensures userId == if old(userId) == "" then freshId else old(userId)
      ensures productiveList == if old(productiveList).None? then Some(Classification.DEFAULT_PRODUCTIVE) else old(productiveList)
      ensures unproductiveList == if old(unproductiveList).None? then Some(Classification.DEFAULT_UNPRODUCTIVE) else old(unproductiveList)
      ensures usage == old(usage) && current == old(current)
    {
      if userId == "" {
        userId := freshId;
      }
      if productiveList.None? {
        productiveList := Some(Classification.DEFAULT_PRODUCTIVE);
      }
      if unproductiveList.None? {
        unproductiveList := Some(Classification.DEFAULT_UNPRODUCTIVE);
      }
    }

    /** `stopAndRecord`, with the clock reading `now` and today's key `dateKey`. */
    method StopAndRecord(now: int, dateKey: string)
      modifies this
      ensures State() == Stopped(old(State()), now, dateKey)
      ensures userId == old(userId) && productiveList == old(productiveList) && unproductiveList == old(unproductiveList)
    {
      if current.Some? && current.value.domain != "" && current.value.startTime != 0 {
        var secs := RoundedSeconds(now - current.value.startTime);
        usage := AddSeconds(usage, dateKey, current.value.domain, secs);
      }
      current := None;
    }

    /** `startTracking`, with the clock reading `now`. */
    method StartTracking(tab: Option<Tab>, now: int)
      modifies this
      ensures State() == Started(old(State()), tab, now)
      ensures userId == old(userId) && productiveList == old(productiveList) && unproductiveList == old(unproductiveList)
    {
      if tab.None? || tab.value.url == "" {
        return;
      }
      current := Some(Session(tab.value.id, TabDomain(tab.value), now));
    }

    /** `handleTabChange`: the close reads the clock at `closeAt`, the open at `openAt`. */
    method HandleTabChange(tab: Option<Tab>, closeAt: int, openAt: int, dateKey: string)
      modifies this
      ensures State() == TabChanged(old(State()), tab, closeAt, openAt, dateKey)
      ensures userId == old(userId) && productiveList == old(productiveList) && unproductiveList == old(unproductiveList)
    {
      if tab.None? {
        return;
      }
      if current.Some? && current.value.domain == TabDomain(tab.value) && current.value.tabId == tab.value.id {
        return;
      }
      StopAndRecord(closeAt, dateKey);
      StartTracking(tab, openAt);
    }

    /**
     * The `onFocusChanged` handler: losing focus closes the session; gaining
     * it hands the active tab (None when there is none) to `handleTabChange`.
     */
    method OnFocusChanged(windowId: int, activeTab: Option<Tab>, closeAt: int, openAt: int, dateKey: string)
      modifies this
      ensures windowId == WINDOW_ID_NONE ==> State() == Stopped(old(State()), closeAt, dateKey)
      ensures windowId != WINDOW_ID_NONE ==> State() == TabChanged(old(State()), activeTab, closeAt, openAt, dateKey)
      ensures userId == old(userId) && productiveList == old(productiveList) && unproductiveList == old(unproductiveList)
    {
      if windowId == WINDOW_ID_NONE {
        StopAndRecord(closeAt, dateKey);
      } else if activeTab.Some? {
        HandleTabChange(activeTab, closeAt, openAt, dateKey);
      }
    }

    /**
     * `flushToBackend`: returns the request posted, if any. Nothing is sent
     * without an identity or with an empty ledger; the ledger is cleared only
     * when the response is ok, and kept on a failed status or an exception.
     */
    method FlushToBackend(outcome: FetchOutcome) returns (request: Option<Request>)
      modifies this
      ensures request.None? <==> (userId == "" || old(usage) == map[])
      ensures request.Some? ==> request.value == Request(userId, old(usage))
      ensures usage == if request.Some? && Succeeded(outcome) then map[] else old(usage)
      ensures Total(usage) + (if request.Some? && Succeeded(outcome) then Total(request.value.usage) else 0) == Total(old(usage))
      ensures userId == old(userId) && current == old(current)
      ensures productiveList == old(productiveList) && unproductiveList == old(unproductiveList)
    {
      if userId == "" {
        return None;
      }
      if |usage.Keys| == 0 {
        assert usage == map[];
        return None;
      }
      request := Some(Request(userId, usage));
      if Succeeded(outcome) {
        usage := map[];
        TotalEmpty();
      }
    }
  }

  /**
   * The scenario of tracking github.com for 125 seconds, switching to
   * youtube.com, and losing window focus 90 seconds later.
   */
  lemma GithubThenYoutube()
    ensures var s0 := TrackerState(map[], Some(Session(1, "github.com", 1000)));
            var youtube := Tab(2, "https://www.youtube.com/", Some("www.youtube.com"));
            var s1 := TabChanged(s0, Some(youtube), 126000, 126000, "2024-01-01");
            var s2 := Stopped(s1, 216000, "2024-01-01");
            Get(s1.usage, "2024-01-01", "github.com") == 125 &&
            s2.usage == map["2024-01-01" := map["github.com" := 125, "youtube.com" := 90]] &&
            s2.current == None
  {
    SwitchToYoutube();
    CloseYoutube();
  }

  /** The first step of `GithubThenYoutube`: 125 seconds of github.com credited, youtube.com opened. */
  lemma SwitchToYoutube()
    ensures TabChanged(TrackerState(map[], Some(Session(1, "github.com", 1000))),
                       Some(Tab(2, "https://www.youtube.com/", Some("www.youtube.com"))), 126000, 126000, "2024-01-01")
      == TrackerState(map["2024-01-01" := map["github.com" := 125]], Some(Session(2, "youtube.com", 126000)))
  {
    var s0 := TrackerState(map[], Some(Session(1, "github.com", 1000)));
    var youtube := Tab(2, "https://www.youtube.com/", Some("www.youtube.com"));
    assert TabDomain(youtube) == "youtube.com" by {
      Classification.StripWwwOnce("youtube.com");
      assert "www.youtube.com" == "www." + "youtube.com";
    }
    assert Credit(s0.current, 126000) == 125 by {
      assert RoundedSeconds(126000 - 1000) == 125;
    }
    var closed := Stopped(s0, 126000, "2024-01-01");
    assert closed.usage == AddSeconds(map[], "2024-01-01", "github.com", 125);
  }

  /** The second step of `GithubThenYoutube`: 90 seconds of youtube.com credited, nothing open. */
  lemma CloseYoutube()
    ensures Stopped(TrackerState(map["2024-01-01" := map["github.com" := 125]], Some(Session(2, "youtube.com", 126000))),
                    216000, "2024-01-01")
      == TrackerState(map["2024-01-01" := map["github.com" := 125, "youtube.com" := 90]], None)
  {
    var s1 := TrackerState(map["2024-01-01" := map["github.com" := 125]], Some(Session(2, "youtube.com", 126000)));
    assert Credit(s1.current, 216000) == 90 by {
      assert RoundedSeconds(216000 - 126000) == 90;
    }
    assert Stopped(s1, 216000, "2024-01-01").usage == AddSeconds(s1.usage, "2024-01-01", "youtube.com", 90);
  }
}

=== FILE: classification.dfy ===
/**
 * Domain normalisation and the productive / unproductive / neutral
 * classification shared by the extension's popup and the backend dashboard.
 */
module Classification {
  /** The productive list written on first run, and hard-coded in the backend dashboard. */
  const DEFAULT_PRODUCTIVE: seq<string> :=
    ["github.com", "stackoverflow.com", "gitlab.com", "replit.com", "stackblitz.com"]

  /** The unproductive list written on first run, and hard-coded in the backend dashboard. */
  const DEFAULT_UNPRODUCTIVE: seq<string> :=
    ["facebook.com", "instagram.com", "twitter.com", "reddit.com", "youtube.com", "tiktok.com"]

  predicate HasWwwPrefix(host: string)
  {
    |host| >= 4 && host[..4] == "www."
  }

  /** `host.replace(/^www\./, '')`: removes one leading "www." and nothing else. */
  function StripWww(host: string): (d: string)
    ensures HasWwwPrefix(host) ==> host == "www." + d
    ensures !HasWwwPrefix(host) ==> d == host
  {
    if HasWwwPrefix(host) then host[4..] else host
  }

  /** Only one "www." is removed, whatever follows it. */
  lemma StripWwwOnce(d: string)
    ensures StripWww("www." + d) == d
  {
    assert ("www." + d)[..4] == "www.";
  }

  datatype Category = Productive | Unproductive | Neutral

  /** The productive list is consulted first; a domain in neither list is neutral. */
  function Classify(domain: string, productive: seq<string>, unproductive: seq<string>): (c: Category)
    ensures c == Productive <==> domain in productive
    ensures c == Unproductive <==> domain !in productive && domain in unproductive
    ensures c == Neutral <==> domain !in productive && domain !in unproductive
  {
    if domain in productive then Productive
    else if domain in unproductive then Unproductive
    else Neutral
  }
}

=== FILE: ledger.dfy ===
/**
 * The extension's usage ledger; the backend receives the same shape as a
 * `Payload`. A date key (an ISO 8601 calendar date) is mapped to a map from
 * domain to whole seconds.
 * A missing date or domain reads as 0, as `(usage[d][dom] || 0)` does.
 */
module Ledgers {
  type Ledger = map<string, map<string, int>>

  /** Seconds recorded for `domain` on `date`, 0 when either entry is missing. */
  function Get(l: Ledger, date: string, domain: string): int
  {
    if date in l && domain in l[date] then l[date][domain] else 0
  }

  /** Adds `secs` to one (date, domain) entry, creating the entries it needs. */
  function AddSeconds(l: Ledger, date: string, domain: string, secs: int): (r: Ledger)
    ensures r.Keys == l.Keys + {date}
    ensures r[date].Keys == (if date in l then l[date].Keys else {}) + {domain}
    ensures forall d :: d in l && d != date ==> r[d] == l[d]
    ensures Get(r, date, domain) == Get(l, date, domain) + secs
    ensures forall d, dom :: (d != date || dom != domain) ==> Get(r, d, dom) == Get(l, d, dom)
  {
    var day := if date in l then l[date] else map[];
    l[date := day[domain := Get(l, date, domain) + secs]]
  }

  /** Some key of a non-empty map, fixed once and for all so that sums are well defined. */
  ghost function Pick(m: map<string, int>): (k: string)
    requires m != map[]
    ensures k in m
  {
    var k :| k in m; k
  }

  /** The sum of the values of a map. */
  ghost function Sum(m: map<string, int>): int
    decreases |m|
  {
    if m == map[] then 0
    else
      var k := Pick(m);
      assert (m - {k}).Keys == m.Keys - {k};
      m[k] + Sum(m - {k})
  }

  /** The sum does not depend on which key is taken out first. */
  lemma {:induction false} SumRemove(m: map<string, int>, k: string)
    requires k in m
    ensures Sum(m) == m[k] + Sum(m - {k})
    decreases |m|
  {
    var j := Pick(m);
    if j != k {
      assert (m - {j}).Keys == m.Keys - {j};
      assert (m - {k}).Keys == m.Keys - {k};
      SumRemove(m - {j}, k);
      SumRemove(m - {k}, j);
      assert m - {j} - {k} == m - {k} - {j};
    }
  }

  /** Overwriting one value changes the sum by the difference. */
  lemma {:induction false} SumUpdate(m: map<string, int>, k: string, v: int)
    ensures Sum(m[k := v]) == Sum(m) - (if k in m then m[k] else 0) + v
  {
    SumRemove(m[k := v], k);
    assert m[k := v] - {k} == m - {k};
    if k in m {
      SumRemove(m, k);
    } else {
      assert m - {k} == m;
    }
  }

  /** The seconds of each date. */
  ghost function DayTotals(l: Ledger): map<string, int>
  {
    map d | d in l :: Sum(l[d])
  }

  /** All seconds in the ledger, over every date and domain. */
  ghost function Total(l: Ledger): int
  {
    Sum(DayTotals(l))
  }

  /** Adding to one entry adds exactly that many seconds to the whole ledger: nothing is lost or counted twice. */
  lemma TotalAddSeconds(l: Ledger, date: string, domain: string, secs: int)
    ensures Total(AddSeconds(l, date, domain, secs)) == Total(l) + secs
  {
    var day: map<string, int> := if date in l then l[date] else map[];
    var newDay := day[domain := Get(l, date, domain) + secs];
    assert AddSeconds(l, date, domain, secs) == l[date := newDay];
    SumUpdate(day, domain, Get(l, date, domain) + secs);
    if date !in l {
      assert Sum(day) == 0;
    }
    TotalUpdate(l, date, newDay);
  }

  /** Replacing one date's map changes the total by the difference of their sums. */
  lemma TotalUpdate(l: Ledger, date: string, m: map<string, int>)
    ensures Total(l[date := m]) == Total(l) - (if date in l then Sum(l[date]) else 0) + Sum(m)
  {
    var before, after := DayTotals(l), DayTotals(l[date := m]);
    assert after.Keys == before[date := Sum(m)].Keys;
    assert forall d :: d in after ==> after[d] == before[date := Sum(m)][d];
    assert after == before[date := Sum(m)];
    SumUpdate(DayTotals(l), date, Sum(m));
  }

  /** The empty ledger holds no seconds. */
  lemma TotalEmpty()
    ensures Total(map[]) == 0
  {
    assert DayTotals(map[]) == map[];
  }
}

=== FILE: popup.dfy ===
/**
 * The popup's arithmetic: the duration display, today's split into
 * productive, unproductive and neutral seconds with the per-site list sorted
 * largest first, and the parsing of the comma-separated list editors.
 */
module Popup {
  import Classification

  /** JavaScript's `a % b` for `b > 0`: the remainder takes the sign of `a`. */
  function JsRem(a: int, b: int): (r: int)
    requires b > 0
    ensures a >= 0 ==> 0 <= r < b && a == b * (a / b) + r
  {
    if a >= 0 then a % b else -((-a) % b)
  }

  /** Hours, minutes and seconds as `formatSeconds` computes them: floor division, then `%=`. */
  function HoursMinutesSeconds(s: int): (hms: (int, int, int))
    ensures s >= 0 ==> hms.0 >= 0 && 0 <= hms.1 < 60 && 0 <= hms.2 < 60
    ensures s >= 0 ==> hms.0 * 3600 + hms.1 * 60 + hms.2 == s
  {
    var h := s / 3600;
    var rest := JsRem(s, 3600);
    (h, rest / 60, JsRem(rest, 60))
  }

  /** The three shapes `formatSeconds` renders: "Xh Ym", "Ym Zs" and "Zs". */
  datatype Duration = HoursMinutes(h: int, m: int) | MinutesSeconds(m: int, sec: int) | SecondsOnly(sec: int)

  /**
   * `formatSeconds` on a whole number of seconds: hours and minutes (seconds
   * dropped) from an hour on, minutes and seconds from a minute on, seconds below.
   */
  function FormatSeconds(s: int): (r: Duration)
    ensures s >= 0 ==> (r.HoursMinutes? <==> s >= 3600)
    ensures s >= 0 ==> (r.MinutesSeconds? <==> 60 <= s < 3600)
    ensures s >= 0 && r.HoursMinutes? ==> r.h >= 1 && 0 <= r.m < 60 && r.h * 3600 + r.m * 60 <= s < r.h * 3600 + r.m * 60 + 60
    ensures s >= 0 && r.MinutesSeconds? ==> 1 <= r.m < 60 && 0 <= r.sec < 60 && r.m * 60 + r.sec == s
    ensures s >= 0 && r.SecondsOnly? ==> r.sec == s
  {
    var hms := HoursMinutesSeconds(s);
    if hms.0 > 0 then HoursMinutes(hms.0, hms.1)
    else if hms.1 > 0 then MinutesSeconds(hms.1, hms.2)
    else SecondsOnly(hms.2)
  }

  /** One row of the per-site list. */
  datatype Item = Item(domain: string, secs: int, cat: Classification.Category)

  /** The row of one of today's (domain, seconds) entries. */
  function ItemOf(entry: (string, int), productive: seq<string>, unproductive: seq<string>): (item: Item)
    ensures item.domain == Classification.StripWww(entry.0) && item.secs == entry.1
    ensures item.cat == Classification.Productive <==> item.domain in productive
    ensures item.cat == Classification.Unproductive <==> item.domain !in productive && item.domain in unproductive
  {
    var d := Classification.StripWww(entry.0);
    Item(d, entry.1, Classification.Classify(d, productive, unproductive))
  }

  /** The rows of today's entries, in `Object.entries` order. */
  function ItemsOf(entries: seq<(string, int)>, productive: seq<string>, unproductive: seq<string>): (items: seq<Item>)
    ensures |items| == |entries|
    decreases |entries|
  {
    if entries == [] then []
    else
      var n := |entries| - 1;
      ItemsOf(entries[..n], productive, unproductive) + [ItemOf(entries[n], productive, unproductive)]
  }

  /** Row `i` is the row of entry `i`: the domain without "www.", its seconds and its category. */
  lemma {:induction false} ItemsOfAt(entries: seq<(string, int)>, productive: seq<string>, unproductive: seq<string>, i: nat)
    requires i < |entries|
    ensures ItemsOf(entries, productive, unproductive)[i] == ItemOf(entries[i], productive, unproductive)
    decreases |entries|
  {
    var n := |entries| - 1;
    if i < n {
      assert entries[..n][i] == entries[i];
      ItemsOfAt(entries[..n], productive, unproductive, i);
    }
  }

  /** The seconds of all of today's entries. */
  function TotalSecs(entries: seq<(string, int)>): int
    decreases |entries|
  {
    if entries == [] then 0 else TotalSecs(entries[..|entries| - 1]) + entries[|entries| - 1].1
  }

  /** The seconds of the rows in category `cat`. */
  function CategorySecs(items: seq<Item>, cat: Classification.Category): int
    decreases |items|
  {
    if items == [] then 0
    else CategorySecs(items[..|items| - 1], cat) + (if items[|items| - 1].cat == cat then items[|items| - 1].secs else 0)
  }

  /** One more row adds its seconds to the accumulator of its own category only. */
  lemma CategorySecsSnoc(items: seq<Item>, item: Item)
    ensures CategorySecs(items + [item], Classification.Productive) ==
      CategorySecs(items, Classification.Productive) + (if item.cat == Classification.Productive then item.secs else 0)
    ensures CategorySecs(items + [item], Classification.Unproductive) ==
      CategorySecs(items, Classification.Unproductive) + (if item.cat == Classification.Unproductive then item.secs else 0)
    ensures CategorySecs(items + [item], Classification.Neutral) ==
      CategorySecs(items, Classification.Neutral) + (if item.cat == Classification.Neutral then item.secs else 0)
  {
    assert (items + [item])[..|items|] == items;
  }

  /** One more entry: its row is appended and its seconds join the total. */
  lemma StepToday(entries: seq<(string, int)>, i: nat, productive: seq<string>, unproductive: seq<string>)
    requires i < |entries|
    ensures ItemsOf(entries[..i + 1], productive, unproductive) ==
      ItemsOf(entries[..i], productive, unproductive) + [ItemOf(entries[i], productive, unproductive)]
    ensures TotalSecs(entries[..i + 1]) == TotalSecs(entries[..i]) + entries[i].1
  {
    assert entries[..i + 1][..i] == entries[..i];
  }

  /** Every row lands in exactly one category: the three shares add up to the day's total. */
  lemma {:induction false} CategoriesPartitionTotal(entries: seq<(string, int)>, productive: seq<string>, unproductive: seq<string>)
    ensures var items := ItemsOf(entries, productive, unproductive);
      CategorySecs(items, Classification.Productive) + CategorySecs(items, Classification.Unproductive) +
        CategorySecs(items, Classification.Neutral) == TotalSecs(entries)
    decreases |entries|
  {
    if entries != [] {
      var n := |entries| - 1;
      CategoriesPartitionTotal(entries[..n], productive, unproductive);
      StepToday(entries, n, productive, unproductive);
      assert entries[..n + 1] == entries;
      CategorySecsSnoc(ItemsOf(entries[..n], productive, unproductive), ItemOf(entries[n], productive, unproductive));
    }
  }

  /** One iteration of the today loop keeps its invariant. */
  lemma TodayStep(entries: seq<(string, int)>, i: nat, productive: seq<string>, unproductive: seq<string>,
                  items: seq<Item>, prodSec: int, unprodSec: int, neutralSec: int)
    requires i < |entries|
    requires items == ItemsOf(entries[..i], productive, unproductive)
    requires prodSec == CategorySecs(items, Classification.Productive)
    requires unprodSec == CategorySecs(items, Classification.Unproductive)
    requires neutralSec == CategorySecs(items, Classification.Neutral)
    ensures var item := ItemOf(entries[i], productive, unproductive);
      && items + [item] == ItemsOf(entries[..i + 1], productive, unproductive)
      && prodSec + (if item.cat == Classification.Productive then entries[i].1 else 0)
         == CategorySecs(items + [item], Classification.Productive)
      && unprodSec + (if item.cat == Classification.Unproductive then entries[i].1 else 0)
         == CategorySecs(items + [item], Classification.Unproductive)
      && neutralSec + (if item.cat == Classification.Neutral then entries[i].1 else 0)
         == CategorySecs(items + [item], Classification.Neutral)
  {
    StepToday(entries, i, productive, unproductive);
    CategorySecsSnoc(items, ItemOf(entries[i], productive, unproductive));
  }

  /** The body of the today loop: the entry's row, and its seconds added to its category's accumulator. */
  method ClassifyEntry(entry: (string, int), productive: seq<string>, unproductive: seq<string>,
                       prodSec: int, unprodSec: int, neutralSec: int)
    returns (item: Item, prodSec': int, unprodSec': int, neutralSec': int)
    ensures item == ItemOf(entry, productive, unproductive)
    ensures prodSec' == prodSec + (if item.cat == Classification.Productive then entry.1 else 0)
    ensures unprodSec' == unprodSec + (if item.cat == Classification.Unproductive then entry.1 else 0)
    ensures neutralSec' == neutralSec + (if item.cat == Classification.Neutral then entry.1 else 0)
  {
    var (domain, secs) := entry;
    var d := Classification.StripWww(domain);
    prodSec', unprodSec', neutralSec' := prodSec, unprodSec, neutralSec;
    var cat;
    if d in productive {
      cat := Classification.Productive;
      prodSec' := prodSec + secs;
    } else if d in unproductive {
      cat := Classification.Unproductive;
      unprodSec' := unprodSec + secs;
    } else {
      cat := Classification.Neutral;
      neutralSec' := neutralSec + secs;
    }
    item := Item(d, secs, cat);
  }

  /**
   * The today loop: each entry's seconds go to exactly one accumulator, so
   * the three add up to the day's total.
   */
  method ClassifyToday(entries: seq<(string, int)>, productive: seq<string>, unproductive: seq<string>)
    returns (prodSec: int, unprodSec: int, neutralSec: int, items: seq<Item>)
    ensures items == ItemsOf(entries, productive, unproductive)
    ensures prodSec == CategorySecs(items, Classification.Productive)
    ensures unprodSec == CategorySecs(items, Classification.Unproductive)
    ensures neutralSec == CategorySecs(items, Classification.Neutral)
    ensures prodSec + unprodSec + neutralSec == TotalSecs(entries)
  {
    prodSec, unprodSec, neutralSec := 0, 0, 0;
    items := [];
    var i := 0;
    while i < |entries|
      invariant 0 <= i <= |entries|
      invariant items == ItemsOf(entries[..i], productive, unproductive)
      invariant prodSec == CategorySecs(items, Classification.Productive)
      invariant unprodSec == CategorySecs(items, Classification.Unproductive)
      invariant neutralSec == CategorySecs(items, Classification.Neutral)
    {
      var item;
      TodayStep(entries, i, productive, unproductive, items, prodSec, unprodSec, neutralSec);
      item, prodSec, unprodSec, neutralSec := ClassifyEntry(entries[i], productive, unproductive, prodSec, unprodSec, neutralSec);
      items := items + [item];
      i := i + 1;
    }
    assert entries[..i] == entries;
    CategoriesPartitionTotal(entries, productive, unproductive);
  }

  /** Largest seconds first. */
  ghost predicate NonIncreasing(s: seq<Item>)
  {
    forall p, q :: 0 <= p < q < |s| ==> s[p].secs >= s[q].secs
  }

  /** Exchanges two neighbouring rows. */
  method SwapAdjacent(a: array<Item>, j: int)
    requires 0 < j < a.Length
    modifies a
    ensures a[..] == old(a[..])[j - 1 := old(a[j])][j := old(a[j - 1])]
    ensures multiset(a[..]) == old(multiset(a[..]))
  {
    a[j - 1], a[j] := a[j], a[j - 1];
  }

  /** `items.sort((a, b) => b.secs - a.secs)`, as an insertion sort with adjacent swaps. */
  method SortBySecsDescending(a: array<Item>)
    modifies a
    ensures NonIncreasing(a[..])
    ensures multiset(a[..]) == old(multiset(a[..]))
  {
    var i := 0;
    while i < a.Length
      invariant 0 <= i <= a.Length
      invariant forall p, q :: 0 <= p < q < i ==> a[p].secs >= a[q].secs
      invariant multiset(a[..]) == old(multiset(a[..]))
    {
      ghost var before := a[..];
      InsertDown(a, i);
      PrefixAndRest(before, a[..], i + 1);
      i := i + 1;
    }
  }

  /** The inner loop of the sort: moves `a[i]` down into the non-increasing prefix `a[..i]`. */
  method InsertDown(a: array<Item>, i: int)
    requires 0 <= i < a.Length
    requires forall p, q :: 0 <= p < q < i ==> a[p].secs >= a[q].secs
    modifies a
    ensures forall p, q :: 0 <= p < q <= i ==> a[p].secs >= a[q].secs
    ensures multiset(a[..i + 1]) == old(multiset(a[..i + 1]))
    ensures a[i + 1..] == old(a[i + 1..])
  {
    var j := i;
    InsertingStart(a[..], i);
    while j > 0 && a[j - 1].secs < a[j].secs
      invariant 0 <= j <= i
      invariant Inserting(a[..], i, j)
      invariant multiset(a[..i + 1]) == old(multiset(a[..i + 1]))
      invariant a[i + 1..] == old(a[i + 1..])
    {
      ghost var before := a[..];
      SwapAdjacent(a, j);
      SwapStep(before, a[..], i, j);
      j := j - 1;
    }
    InsertingDone(a[..], i, j);
  }

  /**
   * The inner loop's invariant: apart from the moving row at `j`, `s[..i + 1]`
   * is non-increasing, and the moving row is larger than every row after it.
   */
  ghost predicate Inserting(s: seq<Item>, i: int, j: int)
    requires 0 <= j <= i < |s|
  {
    && (forall p, q :: 0 <= p < q <= i && p != j && q != j ==> s[p].secs >= s[q].secs)
    && (forall q :: j < q <= i ==> s[j].secs > s[q].secs)
  }

  lemma InsertingStart(s: seq<Item>, i: int)
    requires 0 <= i < |s|
    requires forall p, q :: 0 <= p < q < i ==> s[p].secs >= s[q].secs
    ensures Inserting(s, i, i)
  {
  }

  /** Once the moving row is no larger than the one before it, the whole prefix is non-increasing. */
  lemma InsertingDone(s: seq<Item>, i: int, j: int)
    requires 0 <= j <= i < |s| && Inserting(s, i, j)
    requires j == 0 || s[j - 1].secs >= s[j].secs
    ensures forall p, q :: 0 <= p < q <= i ==> s[p].secs >= s[q].secs
  {
  }

  /** One exchange moves the row down by one, keeping the invariant, the prefix's rows and the rest. */
  lemma SwapStep(before: seq<Item>, after: seq<Item>, i: int, j: int)
    requires 0 < j <= i < |before| && Inserting(before, i, j)
    requires before[j - 1].secs < before[j].secs
    requires after == before[j - 1 := before[j]][j := before[j - 1]]
    ensures Inserting(after, i, j - 1)
    ensures multiset(after[..i + 1]) == multiset(before[..i + 1])
    ensures after[i + 1..] == before[i + 1..]
  {
    assert after[..i + 1] == before[..i + 1][j - 1 := before[j]][j := before[j - 1]];
  }

  /** Two arrays whose prefixes hold the same rows and whose rests are equal hold the same rows. */
  lemma PrefixAndRest(before: seq<Item>, after: seq<Item>, n: int)
    requires 0 <= n <= |before| == |after|
    requires multiset(after[..n]) == multiset(before[..n])
    requires after[n..] == before[n..]
    ensures multiset(after) == multiset(before)
  {
    assert after == after[..n] + after[n..];
    assert before == before[..n] + before[n..];
  }

  /** A fresh array holding `items`, in order. */
  method ToArray(items: seq<Item>) returns (a: array<Item>)
    ensures fresh(a)
    ensures a[..] == items
  {
    a := new Item[|items|](k requires 0 <= k < |items| => items[k]);
  }

  /**
   * The popup's today view: the three totals and the rows sorted largest
   * first, a permutation of the rows in entry order.
   */
  method TodayView(entries: seq<(string, int)>, productive: seq<string>, unproductive: seq<string>)
    returns (total: int, prodSec: int, unprodSec: int, sorted: seq<Item>)
    ensures total == TotalSecs(entries)
    ensures prodSec == CategorySecs(ItemsOf(entries, productive, unproductive), Classification.Productive)
    ensures unprodSec == CategorySecs(ItemsOf(entries, productive, unproductive), Classification.Unproductive)
    ensures NonIncreasing(sorted)
    ensures multiset(sorted) == multiset(ItemsOf(entries, productive, unproductive))
  {
    var neutralSec, items;
    prodSec, unprodSec, neutralSec, items := ClassifyToday(entries, productive, unproductive);
    total := prodSec + unprodSec + neutralSec;
    var a := ToArray(items);
    SortBySecsDescending(a);
    sorted := a[..];
  }

  /** ECMAScript white space and line terminators, which `String.prototype.trim` removes. */
  predicate IsWhitespace(c: char)
  {
    c == '\t' || c == '\n' || c == '\U{000B}' || c == '\U{000C}' || c == '\r' || c == ' ' ||
    c == '\U{00A0}' || c == '\U{1680}' || ('\U{2000}' <= c <= '\U{200A}') ||
    c == '\U{2028}' || c == '\U{2029}' || c == '\U{202F}' || c == '\U{205F}' ||
    c == '\U{3000}' || c == '\U{FEFF}'
  }

  /** Neither end of `s` is white space. */
  predicate IsTrimmed(s: string)
  {
    s == [] || (!IsWhitespace(s[0]) && !IsWhitespace(s[|s| - 1]))
  }

  /** The number of white-space characters `s` starts with. */
  function LeadingSpace(s: string): (k: nat)
    ensures k <= |s|
    ensures forall i :: 0 <= i < k ==> IsWhitespace(s[i])
    ensures k < |s| ==> !IsWhitespace(s[k])
    decreases |s|
  {
    if s == [] || !IsWhitespace(s[0]) then 0 else 1 + LeadingSpace(s[1..])
  }

  /** Where the white space that ends `s[lo..hi]` begins. */
  function TrailingSpaceStart(s: string, lo: nat, hi: nat): (k: nat)
    requires lo <= hi <= |s|
    ensures lo <= k <= hi
    ensures forall i :: k <= i < hi ==> IsWhitespace(s[i])
    ensures k > lo ==> !IsWhitespace(s[k - 1])
    decreases hi
  {
    if hi == lo || !IsWhitespace(s[hi - 1]) then hi else TrailingSpaceStart(s, lo, hi - 1)
  }

  /** `x.trim()`: `s` with the white space at both ends removed (see `TrimIsInfix`). */
  function Trim(s: string): (r: string)
    ensures IsTrimmed(r)
  {
    var lo := LeadingSpace(s);
    s[lo..TrailingSpaceStart(s, lo, |s|)]
  }

  /**
   * What trimming removes is white space at the two ends: the result is the
   * infix of `s` between them, `lo` characters in.
   */
  lemma TrimIsInfix(s: string) returns (lo: nat)
    ensures lo + |Trim(s)| <= |s| && Trim(s) == s[lo..lo + |Trim(s)|]
    ensures forall i :: 0 <= i < lo ==> IsWhitespace(s[i])
    ensures forall i :: lo + |Trim(s)| <= i < |s| ==> IsWhitespace(s[i])
  {
    lo := LeadingSpace(s);
  }

  /** Trimming never brings in a character the input does not hold. */
  lemma TrimKeepsOut(s: string, c: char)
    requires c !in s
    ensures c !in Trim(s)
  {
    var r := Trim(s);
    var k := TrimIsInfix(s);
    forall j | 0 <= j < |r|
      ensures r[j] != c
    {
      assert r[j] == s[k + j];
    }
  }

  /** Trimming a trimmed string changes nothing. */
  lemma TrimTrimmed(s: string)
    requires IsTrimmed(s)
    ensures Trim(s) == s
  {
  }

  /** `s.split(sep)`: the pieces between separators, an empty string giving one empty piece. */
  function Split(s: string, sep: char): (pieces: seq<string>)
    ensures |pieces| >= 1
    ensures forall p :: p in pieces ==> sep !in p
    decreases |s|
  {
    if s == [] then [""]
    else
      var rest := Split(s[1..], sep);
      if s[0] == sep then [""] + rest
      else [[s[0]] + rest[0]] + rest[1..]
  }

  /** The total length of the pieces. */
  function Lengths(pieces: seq<string>): nat
    decreases |pieces|
  {
    if pieces == [] then 0 else |pieces[0]| + Lengths(pieces[1..])
  }

  /** `pieces.join(sep)`. */
  function Join(pieces: seq<string>, sep: char): string
    decreases |pieces|
  {
    if pieces == [] then ""
    else if |pieces| == 1 then pieces[0]
    else pieces[0] + [sep] + Join(pieces[1..], sep)
  }

  /** The join's length: the pieces' total plus one separator between each two neighbours. */
  lemma {:induction false} JoinLength(pieces: seq<string>, sep: char)
    ensures pieces == [] ==> Join(pieces, sep) == ""
    ensures pieces != [] ==> |Join(pieces, sep)| == Lengths(pieces) + |pieces| - 1
    decreases |pieces|
  {
    if |pieces| > 1 {
      JoinLength(pieces[1..], sep);
    }
  }

  /** Where piece `i` starts in the join: the pieces before it, each followed by one separator. */
  function Offset(pieces: seq<string>, i: nat): nat
    requires i <= |pieces|
  {
    Lengths(pieces[..i]) + i
  }

  /** The total length of a non-empty prefix, its first piece taken apart. */
  lemma LengthsOfPrefix(pieces: seq<string>, i: nat)
    requires 0 < i <= |pieces|
    ensures Lengths(pieces[..i]) == |pieces[0]| + Lengths(pieces[1..][..i - 1])
  {
    assert pieces[..i][1..] == pieces[1..][..i - 1];
  }

  /** Piece `i` sits at `Offset(pieces, i)` in the join, right after a separator unless it is the first. */
  lemma {:induction false} JoinPieceAt(pieces: seq<string>, sep: char, i: nat)
    requires i < |pieces|
    ensures Offset(pieces, i) + |pieces[i]| <= |Join(pieces, sep)|
    ensures Join(pieces, sep)[Offset(pieces, i)..Offset(pieces, i) + |pieces[i]|] == pieces[i]
    ensures 0 < i ==> Join(pieces, sep)[Offset(pieces, i) - 1] == sep
    decreases i
  {
    assert pieces[..0] == [];
    if i > 0 {
      var rest := Join(pieces[1..], sep);
      var k := |pieces[0]| + 1;
      JoinPieceAt(pieces[1..], sep, i - 1);
      LengthsOfPrefix(pieces, i);
      var o := Offset(pieces[1..], i - 1);
      assert Offset(pieces, i) == k + o;
      assert pieces[1..][i - 1] == pieces[i];
      ShiftedSlice(pieces[0] + [sep], rest, o, o + |pieces[i]|);
    }
  }

  /** A slice of the second part of a concatenation, read through the whole. */
  lemma ShiftedSlice(a: string, b: string, lo: nat, hi: nat)
    requires lo <= hi <= |b|
    ensures (a + b)[|a| + lo..|a| + hi] == b[lo..hi]
    ensures lo < |b| ==> (a + b)[|a| + lo] == b[lo]
    ensures 0 < lo ==> (a + b)[|a| + lo - 1] == b[lo - 1]
  {
  }

  /**
   * `pieces.join(sep)` holds every piece in order, each at its `Offset`, with
   * the separator between each two neighbours; with `JoinLength`, nothing else.
   */
  lemma JoinPieces(pieces: seq<string>, sep: char)
    ensures forall i :: 0 <= i < |pieces| ==>
      Offset(pieces, i) + |pieces[i]| <= |Join(pieces, sep)| &&
      Join(pieces, sep)[Offset(pieces, i)..Offset(pieces, i) + |pieces[i]|] == pieces[i]
    ensures forall i :: 0 < i < |pieces| ==> Join(pieces, sep)[Offset(pieces, i) - 1] == sep
  {
    forall i | 0 <= i < |pieces|
      ensures Offset(pieces, i) + |pieces[i]| <= |Join(pieces, sep)|
      ensures Join(pieces, sep)[Offset(pieces, i)..Offset(pieces, i) + |pieces[i]|] == pieces[i]
      ensures 0 < i ==> Join(pieces, sep)[Offset(pieces, i) - 1] == sep
    {
      JoinPieceAt(pieces, sep, i);
    }
  }

  /** `Join` of a first piece followed by more pieces. */
  lemma JoinCons(first: string, rest: seq<string>, sep: char)
    requires rest != []
    ensures Join([first] + rest, sep) == first + [sep] + Join(rest, sep)
  {
    assert ([first] + rest)[1..] == rest;
  }

  /** Joining the pieces of a split gives back the input. */
  lemma {:induction false} JoinSplit(s: string, sep: char)
    ensures Join(Split(s, sep), sep) == s
    decreases |s|
  {
    if s != [] {
      JoinSplit(s[1..], sep);
      var rest := Split(s[1..], sep);
      assert [s[0]] + s[1..] == s;
      if s[0] == sep {
        JoinCons("", rest, sep);
      } else {
        var head := [s[0]] + rest[0];
        if |rest| == 1 {
          assert Join([head], sep) == head;
        } else {
          assert rest == [rest[0]] + rest[1..];
          JoinCons(head, rest[1..], sep);
          JoinCons(rest[0], rest[1..], sep);
        }
      }
    }
  }

  /** Splitting a separator-free string followed by a separator splits off that string. */
  lemma {:induction false} SplitAfter(a: string, sep: char, b: string)
    requires sep !in a
    ensures Split(a + [sep] + b, sep) == [a] + Split(b, sep)
    decreases |a|
  {
    if a == [] {
      assert [] + [sep] + b == [sep] + b;
      assert ([sep] + b)[1..] == b;
    } else {
      assert (a + [sep] + b)[1..] == a[1..] + [sep] + b;
      SplitAfter(a[1..], sep, b);
      assert [a[0]] + a[1..] == a;
    }
  }

  /** A separator-free string is one piece. */
  lemma {:induction false} SplitWhole(a: string, sep: char)
    requires sep !in a
    ensures Split(a, sep) == [a]
    decreases |a|
  {
    if a != [] {
      SplitWhole(a[1..], sep);
      assert [a[0]] + a[1..] == a;
    }
  }

  /** Splitting a join of separator-free pieces gives the pieces back. */
  lemma {:induction false} SplitJoin(pieces: seq<string>, sep: char)
    requires pieces != []
    requires forall p :: p in pieces ==> sep !in p
    ensures Split(Join(pieces, sep), sep) == pieces
    decreases |pieces|
  {
    if |pieces| == 1 {
      SplitWhole(pieces[0], sep);
    } else {
      SplitJoin(pieces[1..], sep);
      SplitAfter(pieces[0], sep, Join(pieces[1..], sep));
    }
  }

  /** `.map(x => x.trim()).filter(Boolean)`: the non-empty trimmed pieces, in order. */
  function TrimAndDropEmpty(pieces: seq<string>): (r: seq<string>)
    ensures forall x :: x in r ==> x != "" && IsTrimmed(x)
    decreases |pieces|
  {
    if pieces == [] then []
    else
      var t := Trim(pieces[0]);
      var rest := TrimAndDropEmpty(pieces[1..]);
      if t == "" then rest else [t] + rest
  }

  /** Every kept entry is the trim of some piece: returns the index of one. */
  lemma {:induction false} KeptComesFromPiece(pieces: seq<string>, x: string) returns (i: nat)
    requires x in TrimAndDropEmpty(pieces)
    ensures i < |pieces| && Trim(pieces[i]) == x
    decreases |pieces|
  {
    if Trim(pieces[0]) == x {
      i := 0;
    } else {
      var j := KeptComesFromPiece(pieces[1..], x);
      i := j + 1;
    }
  }

  /** Every piece whose trim is non-empty is kept: returns where. */
  lemma {:induction false} PieceIsKept(pieces: seq<string>, i: nat) returns (j: nat)
    requires i < |pieces| && Trim(pieces[i]) != ""
    ensures j < |TrimAndDropEmpty(pieces)| && TrimAndDropEmpty(pieces)[j] == Trim(pieces[i])
    decreases |pieces|
  {
    var rest := TrimAndDropEmpty(pieces[1..]);
    var t := Trim(pieces[0]);
    assert TrimAndDropEmpty(pieces) == if t == "" then rest else [t] + rest;
    if i == 0 {
      j := 0;
    } else {
      assert pieces[1..][i - 1] == pieces[i];
      var k := PieceIsKept(pieces[1..], i - 1);
      if t == "" {
        j := k;
      } else {
        j := k + 1;
        assert ([t] + rest)[j] == rest[k];
      }
    }
  }

  /**
   * The `saveLists` handler's parsing of one input box: split on commas,
   * trim, and drop the empty pieces.
   */
  function ParseList(input: string): (r: seq<string>)
    ensures forall x :: x in r ==> x != "" && IsTrimmed(x)
  {
    TrimAndDropEmpty(Split(input, ','))
  }

  /** A parsed entry is the trim of a comma-separated piece, so it holds no comma. */
  lemma ParsedEntryFromPiece(input: string, x: string) returns (i: nat)
    requires x in ParseList(input)
    ensures i < |Split(input, ',')| && Trim(Split(input, ',')[i]) == x
    ensures ',' !in x
  {
    var pieces := Split(input, ',');
    i := KeptComesFromPiece(pieces, x);
    assert pieces[i] in pieces;
    TrimKeepsOut(pieces[i], ',');
  }

  /** A comma-separated piece that is not blank is parsed into an entry. */
  lemma PieceIsParsed(input: string, i: nat)
    requires i < |Split(input, ',')| && Trim(Split(input, ',')[i]) != ""
    ensures Trim(Split(input, ',')[i]) in ParseList(input)
  {
    var j := PieceIsKept(Split(input, ','), i);
  }

  /**
   * The editors show each list joined with commas; saving them unedited
   * gives back the same list when its entries are non-empty, trimmed and
   * comma-free, which every parsed list is.
   */
  lemma {:induction false} ParseJoinedList(list: seq<string>)
    requires forall x :: x in list ==> x != "" && IsTrimmed(x) && ',' !in x
    ensures ParseList(Join(list, ',')) == list
  {
    if list == [] {
      assert Split("", ',') == [""];
    } else {
      SplitJoin(list, ',');
      KeepsCleanPieces(list);
    }
  }

  lemma {:induction false} KeepsCleanPieces(list: seq<string>)
    requires forall x :: x in list ==> x != "" && IsTrimmed(x)
    ensures TrimAndDropEmpty(list) == list
    decreases |list|
  {
    if list != [] {
      TrimTrimmed(list[0]);
      assert forall x :: x in list[1..] ==> x in list;
      KeepsCleanPieces(list[1..]);
    }
  }
}

=== FILE: server.dfy ===
/**
 * The backend: `POST /api/usage` merges a user's ledger additively into a
 * flat list of (user, date, domain, seconds) records, and
 * `GET /api/dashboard` buckets one user's records of the last seven days
 * into productive, unproductive and neutral seconds. The database file is
 * an in-memory object; each request runs to completion on its own.
 */
module Server {
  import opened Wrappers
  import Classification

  datatype Record = Record(userId: string, date: string, domain: string, seconds: int)

  /** What `Number(value)` gives for a posted seconds value: a number, or NaN. */
  datatype JsonSeconds = Numeric(n: int) | NotANumber

  datatype DomainEntry = DomainEntry(domain: string, value: JsonSeconds)

  /** One date key of the posted `usage` object with its domains, in `Object.keys` order. */
  datatype DayEntry = DayEntry(date: string, domains: seq<DomainEntry>)

  type Payload = seq<DayEntry>

  /** One (date, domain, seconds) triple of a payload, seconds already converted. */
  datatype Triple = Triple(date: string, domain: string, seconds: int)

  /** `Number(value) || 0`: NaN counts as zero. */
  function ToSeconds(v: JsonSeconds): (secs: int)
    ensures v.Numeric? ==> secs == v.n
    ensures v.NotANumber? ==> secs == 0
  {
    if v.Numeric? then v.n else 0
  }

  /** The triples of one date, in iteration order. */
  function DayTriples(date: string, domains: seq<DomainEntry>): (ts: seq<Triple>)
    ensures |ts| == |domains|
    ensures forall i :: 0 <= i < |ts| ==>
      ts[i] == Triple(date, domains[i].domain, ToSeconds(domains[i].value))
    decreases |domains|
  {
    if domains == [] then []
    else
      var n := |domains| - 1;
      DayTriples(date, domains[..n]) + [Triple(date, domains[n].domain, ToSeconds(domains[n].value))]
  }

  /** All triples of a payload, in the order the nested loops visit them. */
  function Triples(p: Payload): seq<Triple>
    decreases |p|
  {
    if p == [] then []
    else Triples(p[..|p| - 1]) + DayTriples(p[|p| - 1].date, p[|p| - 1].domains)
  }

  /** One more date of the payload adds its triples at the end. */
  lemma TriplesOfPrefix(p: Payload, i: nat)
    requires i < |p|
    ensures Triples(p[..i + 1]) == Triples(p[..i]) + DayTriples(p[i].date, p[i].domains)
  {
    assert p[..i + 1][..i] == p[..i];
  }

  /** One more domain of a date: its triple is merged after those before it. */
  lemma MergeDayStep(recs: seq<Record>, userId: string, date: string, domains: seq<DomainEntry>, j: nat)
    requires j < |domains|
    ensures MergeAll(recs, userId, DayTriples(date, domains[..j + 1])) ==
      MergeOne(MergeAll(recs, userId, DayTriples(date, domains[..j])), userId,
               Triple(date, domains[j].domain, ToSeconds(domains[j].value)))
  {
    var done := DayTriples(date, domains[..j]);
    var t := Triple(date, domains[j].domain, ToSeconds(domains[j].value));
    assert domains[..j + 1][..j] == domains[..j];
    assert DayTriples(date, domains[..j + 1]) == done + [t];
    assert (done + [t])[..|done|] == done;
  }

  predicate Matches(r: Record, userId: string, date: string, domain: string)
  {
    r.userId == userId && r.date == date && r.domain == domain
  }

  /** `db.usage.find(...)`: the index of the first matching record, `|recs|` when there is none. */
  function FirstMatch(recs: seq<Record>, userId: string, date: string, domain: string): (k: nat)
    ensures k <= |recs|
    ensures k < |recs| ==> Matches(recs[k], userId, date, domain)
    ensures forall i :: 0 <= i < k ==> !Matches(recs[i], userId, date, domain)
    decreases |recs|
  {
    if recs == [] then 0
    else if Matches(recs[0], userId, date, domain) then 0
    else 1 + FirstMatch(recs[1..], userId, date, domain)
  }

  /** The durable seconds of a key: those of the record `find` returns, 0 when there is none. */
  function Lookup(recs: seq<Record>, userId: string, date: string, domain: string): int
  {
    var k := FirstMatch(recs, userId, date, domain);
    if k < |recs| then recs[k].seconds else 0
  }

  /** The key of a record. */
  function Key(r: Record): (string, string, string)
  {
    (r.userId, r.date, r.domain)
  }

  /** No two records share a (userId, date, domain) key. */
  ghost predicate UniqueKeys(recs: seq<Record>)
  {
    forall i, j :: 0 <= i < j < |recs| ==> Key(recs[i]) != Key(recs[j])
  }

  /** The body of the inner loop: increment the matching record, or append a new one. */
  function MergeOne(recs: seq<Record>, userId: string, t: Triple): (r: seq<Record>)
    ensures |r| == |recs| || r == recs + [Record(userId, t.date, t.domain, t.seconds)]
  {
    var k := FirstMatch(recs, userId, t.date, t.domain);
    if k < |recs| then recs[k := recs[k].(seconds := recs[k].seconds + t.seconds)]
    else recs + [Record(userId, t.date, t.domain, t.seconds)]
  }

  /**
   * Merging one triple adds its seconds to the poster's record for its key,
   * changes no other key, keeps every record's key and order, appends at most
   * the one new record, and keeps the keys of the records distinct.
   */
  lemma MergeOneSpec(recs: seq<Record>, userId: string, t: Triple)
    ensures var r := MergeOne(recs, userId, t);
      Lookup(r, userId, t.date, t.domain) == Lookup(recs, userId, t.date, t.domain) + t.seconds
    ensures var r := MergeOne(recs, userId, t);
      forall u, d, dom :: !(u == userId && d == t.date && dom == t.domain) ==>
        Lookup(r, u, d, dom) == Lookup(recs, u, d, dom)
    ensures var r := MergeOne(recs, userId, t);
      |recs| <= |r| <= |recs| + 1
    ensures var r := MergeOne(recs, userId, t);
      forall i :: 0 <= i < |recs| ==> Key(r[i]) == Key(recs[i])
    ensures var r := MergeOne(recs, userId, t);
      forall i :: 0 <= i < |recs| && !Matches(recs[i], userId, t.date, t.domain) ==> r[i] == recs[i]
    ensures var r := MergeOne(recs, userId, t);
      forall i :: |recs| <= i < |r| ==> r[i] == Record(userId, t.date, t.domain, t.seconds)
    ensures UniqueKeys(recs) ==> UniqueKeys(MergeOne(recs, userId, t))
  {
    var k := FirstMatch(recs, userId, t.date, t.domain);
    if k < |recs| {
      LookupAfterUpdate(recs, k, t.seconds);
    } else {
      LookupAfterAppend(recs, Record(userId, t.date, t.domain, t.seconds));
    }
  }

  /** Incrementing the record at `k` changes the lookup of its key only. */
  lemma LookupAfterUpdate(recs: seq<Record>, k: nat, secs: int)
    requires k < |recs|
    requires k == FirstMatch(recs, recs[k].userId, recs[k].date, recs[k].domain)
    ensures var r := recs[k := recs[k].(seconds := recs[k].seconds + secs)];
      && Lookup(r, recs[k].userId, recs[k].date, recs[k].domain) == recs[k].seconds + secs
      && forall u, d, dom :: !Matches(recs[k], u, d, dom) ==> Lookup(r, u, d, dom) == Lookup(recs, u, d, dom)
  {
    var r := recs[k := recs[k].(seconds := recs[k].seconds + secs)];
    assert FirstMatch(r, recs[k].userId, recs[k].date, recs[k].domain) == k by {
      FirstMatchSameKeys(recs, r, recs[k].userId, recs[k].date, recs[k].domain);
    }
    forall u, d, dom | !Matches(recs[k], u, d, dom)
      ensures Lookup(r, u, d, dom) == Lookup(recs, u, d, dom)
    {
      FirstMatchSameKeys(recs, r, u, d, dom);
    }
  }

  /** Two lists with the same keys at every index find the same index. */
  lemma {:induction false} FirstMatchSameKeys(a: seq<Record>, b: seq<Record>, u: string, d: string, dom: string)
    requires |a| == |b|
    requires forall i :: 0 <= i < |a| ==> Key(a[i]) == Key(b[i])
    ensures FirstMatch(a, u, d, dom) == FirstMatch(b, u, d, dom)
    decreases |a|
  {
    if a != [] {
      assert Key(a[0]) == Key(b[0]);
      FirstMatchSameKeys(a[1..], b[1..], u, d, dom);
    }
  }

  /** Appending a record changes the lookup of its key only, and only if it was absent. */
  lemma LookupAfterAppend(recs: seq<Record>, x: Record)
    requires FirstMatch(recs, x.userId, x.date, x.domain) == |recs|
    ensures Lookup(recs + [x], x.userId, x.date, x.domain) == x.seconds
    ensures forall u, d, dom :: !Matches(x, u, d, dom) ==> Lookup(recs + [x], u, d, dom) == Lookup(recs, u, d, dom)
  {
    forall u, d, dom
      ensures FirstMatch(recs + [x], u, d, dom) ==
        if FirstMatch(recs, u, d, dom) < |recs| then FirstMatch(recs, u, d, dom)
        else if Matches(x, u, d, dom) then |recs| else |recs| + 1
    {
      FirstMatchAppend(recs, x, u, d, dom);
    }
  }

  lemma {:induction false} FirstMatchAppend(recs: seq<Record>, x: Record, u: string, d: string, dom: string)
    ensures FirstMatch(recs + [x], u, d, dom) ==
      if FirstMatch(recs, u, d, dom) < |recs| then FirstMatch(recs, u, d, dom)
      else if Matches(x, u, d, dom) then |recs| else |recs| + 1
    decreases |recs|
  {
    if recs != [] {
      assert (recs + [x])[1..] == recs[1..] + [x];
      FirstMatchAppend(recs[1..], x, u, d, dom);
    }
  }

  /** The merge loop: every triple of the payload merged in order. */
  function MergeAll(recs: seq<Record>, userId: string, ts: seq<Triple>): (r: seq<Record>)
    ensures |recs| <= |r| <= |recs| + |ts|
    decreases |ts|
  {
    if ts == [] then recs
    else MergeOne(MergeAll(recs, userId, ts[..|ts| - 1]), userId, ts[|ts| - 1])
  }

  /** Dropping the last element of `a + b` drops the last element of `b`. */
  lemma ConcatDropLast(a: seq<Triple>, b: seq<Triple>)
    requires b != []
    ensures (a + b)[..|a + b| - 1] == a + b[..|b| - 1]
    ensures (a + b)[|a + b| - 1] == b[|b| - 1]
  {
  }

  /** Merging two lists of triples one after the other merges their concatenation. */
  lemma {:induction false} MergeAllConcat(recs: seq<Record>, userId: string, a: seq<Triple>, b: seq<Triple>)
    ensures MergeAll(MergeAll(recs, userId, a), userId, b) == MergeAll(recs, userId, a + b)
    decreases |b|
  {
    if b == [] {
      assert a + b == a;
    } else {
      var n := |b| - 1;
      MergeAllConcat(recs, userId, a, b[..n]);
      ConcatDropLast(a, b);
    }
  }

  /** The seconds a list of triples carries for one (date, domain). */
  function Contribution(ts: seq<Triple>, date: string, domain: string): int
    decreases |ts|
  {
    if ts == [] then 0
    else
      var t := ts[|ts| - 1];
      Contribution(ts[..|ts| - 1], date, domain) + (if t.date == date && t.domain == domain then t.seconds else 0)
  }

  /**
   * Merging is additive: the poster's durable seconds for each key grow by
   * the payload's seconds for that key; every other user's are unchanged.
   */
  lemma {:induction false} MergeAllIsAdditive(recs: seq<Record>, userId: string, ts: seq<Triple>, u: string, date: string, domain: string)
    ensures Lookup(MergeAll(recs, userId, ts), u, date, domain) ==
      Lookup(recs, u, date, domain) + (if u == userId then Contribution(ts, date, domain) else 0)
    decreases |ts|
  {
    if ts != [] {
      MergeAllIsAdditive(recs, userId, ts[..|ts| - 1], u, date, domain);
      MergeOneSpec(MergeAll(recs, userId, ts[..|ts| - 1]), userId, ts[|ts| - 1]);
    }
  }

  /** Ingesting the same payload twice doubles its contribution. */
  lemma MergeTwiceDoubles(recs: seq<Record>, userId: string, ts: seq<Triple>, date: string, domain: string)
    ensures Lookup(MergeAll(MergeAll(recs, userId, ts), userId, ts), userId, date, domain) ==
      Lookup(recs, userId, date, domain) + 2 * Contribution(ts, date, domain)
  {
    MergeAllIsAdditive(recs, userId, ts, userId, date, domain);
    MergeAllIsAdditive(MergeAll(recs, userId, ts), userId, ts, userId, date, domain);
  }

  /** Keys stay unique; existing records keep their index and key; new records belong to the poster. */
  lemma {:induction false} MergeAllKeepsRecords(recs: seq<Record>, userId: string, ts: seq<Triple>)
    ensures var r := MergeAll(recs, userId, ts);
      && |recs| <= |r|
      && (forall i :: 0 <= i < |recs| ==> Key(r[i]) == Key(recs[i]))
      && (forall i :: 0 <= i < |recs| && recs[i].userId != userId ==> r[i] == recs[i])
      && (forall i :: |recs| <= i < |r| ==> r[i].userId == userId)
      && (UniqueKeys(recs) ==> UniqueKeys(r))
    decreases |ts|
  {
    if ts != [] {
      MergeAllKeepsRecords(recs, userId, ts[..|ts| - 1]);
      MergeOneSpec(MergeAll(recs, userId, ts[..|ts| - 1]), userId, ts[|ts| - 1]);
    }
  }

  /** The records of everyone but `userId`, in order. */
  function OthersOf(recs: seq<Record>, userId: string): seq<Record>
    decreases |recs|
  {
    if recs == [] then []
    else OthersOf(recs[..|recs| - 1], userId) + (if recs[|recs| - 1].userId != userId then [recs[|recs| - 1]] else [])
  }

  lemma {:induction false} OthersOfAgree(a: seq<Record>, b: seq<Record>, userId: string)
    requires |a| <= |b|
    requires forall i :: 0 <= i < |a| && a[i].userId != userId ==> b[i] == a[i]
    requires forall i :: 0 <= i < |a| ==> (a[i].userId == userId <==> b[i].userId == userId)
    requires forall i :: |a| <= i < |b| ==> b[i].userId == userId
    ensures OthersOf(b, userId) == OthersOf(a, userId)
    decreases |b|
  {
    if |b| > |a| {
      OthersOfAgree(a, b[..|b| - 1], userId);
    } else if b != [] {
      var n := |b| - 1;
      OthersOfAgree(a[..n], b[..n], userId);
    }
  }

  /** A merge leaves the records of every other user exactly as they were, in the same order. */
  lemma MergeAllKeepsOthers(recs: seq<Record>, userId: string, ts: seq<Triple>)
    ensures OthersOf(MergeAll(recs, userId, ts), userId) == OthersOf(recs, userId)
  {
    MergeAllKeepsRecords(recs, userId, ts);
    var r := MergeAll(recs, userId, ts);
    forall i | 0 <= i < |recs|
      ensures recs[i].userId == userId <==> r[i].userId == userId
    {
      assert Key(r[i]) == Key(recs[i]);
    }
    OthersOfAgree(recs, r, userId);
  }

  /** `db.users` after registering `userId`. */
  function Register(users: seq<string>, userId: string): (r: seq<string>)
    ensures userId in r
    ensures forall u :: u in r <==> u in users || u == userId
    ensures (forall i, j :: 0 <= i < j < |users| ==> users[i] != users[j]) ==>
      (forall i, j :: 0 <= i < j < |r| ==> r[i] != r[j])
    ensures userId in users ==> r == users
  {
    if userId in users then users else users + [userId]
  }

  /** The three totals of one dashboard day. */
  datatype Buckets = Buckets(productive: int, unproductive: int, neutral: int)

  /** The dashboard's classification: the hard-coded default lists, after removing "www.". */
  function DashboardCategory(domain: string): (c: Classification.Category)
    ensures c == Classification.Productive <==> Classification.StripWww(domain) in Classification.DEFAULT_PRODUCTIVE
    ensures c == Classification.Unproductive <==>
      Classification.StripWww(domain) !in Classification.DEFAULT_PRODUCTIVE &&
      Classification.StripWww(domain) in Classification.DEFAULT_UNPRODUCTIVE
  {
    Classification.Classify(Classification.StripWww(domain),
                            Classification.DEFAULT_PRODUCTIVE, Classification.DEFAULT_UNPRODUCTIVE)
  }

  /** The seconds of `userId`'s records on `date` whose domain falls in `cat`. */
  function CategorySeconds(recs: seq<Record>, userId: string, date: string, cat: Classification.Category): int
    decreases |recs|
  {
    if recs == [] then 0
    else
      var r := recs[|recs| - 1];
      CategorySeconds(recs[..|recs| - 1], userId, date, cat) +
        (if r.userId == userId && r.date == date && DashboardCategory(r.domain) == cat then r.seconds else 0)
  }

  /** The seconds of all `userId`'s records on `date`. */
  function DaySeconds(recs: seq<Record>, userId: string, date: string): int
    decreases |recs|
  {
    if recs == [] then 0
    else
      var r := recs[|recs| - 1];
      DaySeconds(recs[..|recs| - 1], userId, date) + (if r.userId == userId && r.date == date then r.seconds else 0)
  }

  function BucketsOf(recs: seq<Record>, userId: string, date: string): Buckets
  {
    Buckets(CategorySeconds(recs, userId, date, Classification.Productive),
            CategorySeconds(recs, userId, date, Classification.Unproductive),
            CategorySeconds(recs, userId, date, Classification.Neutral))
  }

  /** Every record lands in exactly one bucket: the three add up to the day's total. */
  lemma {:induction false} BucketsPartitionDay(recs: seq<Record>, userId: string, date: string)
    ensures var b := BucketsOf(recs, userId, date);
      b.productive + b.unproductive + b.neutral == DaySeconds(recs, userId, date)
    decreases |recs|
  {
    if recs != [] {
      BucketsPartitionDay(recs[..|recs| - 1], userId, date);
    }
  }

  /** `days[u.date][cat] += seconds`, on one day's buckets. */
  function AddTo(b: Buckets, cat: Classification.Category, secs: int): (r: Buckets)
    ensures r.productive + r.unproductive + r.neutral == b.productive + b.unproductive + b.neutral + secs
    ensures cat != Classification.Productive ==> r.productive == b.productive
    ensures cat != Classification.Unproductive ==> r.unproductive == b.unproductive
    ensures cat != Classification.Neutral ==> r.neutral == b.neutral
  {
    match cat
    case Productive => b.(productive := b.productive + secs)
    case Unproductive => b.(unproductive := b.unproductive + secs)
    case Neutral => b.(neutral := b.neutral + secs)
  }

  /**
   * One more record adds its seconds to the bucket of its domain on its own
   * day, for its own user, and touches no other user's or day's buckets.
   */
  lemma BucketsOfSnoc(recs: seq<Record>, x: Record, userId: string, date: string)
    ensures BucketsOf(recs + [x], userId, date) ==
      if x.userId == userId && x.date == date
      then AddTo(BucketsOf(recs, userId, date), DashboardCategory(x.domain), x.seconds)
      else BucketsOf(recs, userId, date)
  {
    assert (recs + [x])[..|recs|] == recs;
  }

  /** `BucketsOfSnoc` for a prefix of the records growing by one. */
  lemma BucketsOfPrefix(recs: seq<Record>, n: nat, userId: string, date: string)
    requires n < |recs|
    ensures BucketsOf(recs[..n + 1], userId, date) ==
      if recs[n].userId == userId && recs[n].date == date
      then AddTo(BucketsOf(recs[..n], userId, date), DashboardCategory(recs[n].domain), recs[n].seconds)
      else BucketsOf(recs[..n], userId, date)
  {
    assert recs[..n + 1] == recs[..n] + [recs[n]];
    BucketsOfSnoc(recs[..n], recs[n], userId, date);
  }

  /** One step of `TallyUser` keeps every day equal to the buckets of the records seen so far. */
  lemma TallyStep(recs: seq<Record>, n: nat, userId: string, days: map<string, Buckets>)
    requires n < |recs|
    requires forall d :: d in days ==> days[d] == BucketsOf(recs[..n], userId, d)
    ensures var u := recs[n];
      var next := if u.userId == userId && u.date in days
        then days[u.date := AddTo(days[u.date], DashboardCategory(u.domain), u.seconds)]
        else days;
      forall d :: d in next ==> next[d] == BucketsOf(recs[..n + 1], userId, d)
  {
    forall d | d in days {
      BucketsOfPrefix(recs, n, userId, d);
    }
  }

  /** The response of `GET /api/dashboard`. */
  datatype DashboardResponse = MissingUser | Days(data: map<string, Buckets>)

  /** The contents of `db.json`. */
  class Db {
    /** Known user identifiers. */
    var users: seq<string>
    /** One record per (userId, date, domain), in insertion order. */
    var usage: seq<Record>

    /** The database `readDB` falls back to when the file is missing or unreadable. */
    constructor ()
      ensures users == [] && usage == []
    {
      users := [];
      usage := [];
    }

    /**
     * `POST /api/usage`: a missing (or empty) `userId` or a missing `usage`
     * answers 400 and changes nothing; otherwise the user is registered and
     * each triple is merged. Returns the HTTP status.
     */
    method PostUsage(userId: string, payload: Option<Payload>) returns (status: int)
      modifies this
      ensures status == if userId == "" || payload.None? then 400 else 200
      ensures status == 400 ==> users == old(users) && usage == old(usage)
      ensures status == 200 ==> users == Register(old(users), userId)
      ensures status == 200 ==> usage == MergeAll(old(usage), userId, Triples(payload.value))
    {
      if userId == "" || payload.None? {
        return 400;
      }
      if userId !in users {
        users := users + [userId];
      }
      MergePayload(userId, payload.value);
      return 200;
    }

    /** The nested loops of `POST /api/usage`: every date, and every domain of it, in order. */
    method MergePayload(userId: string, p: Payload)
      modifies this`usage
      ensures usage == MergeAll(old(usage), userId, Triples(p))
    {
      var i := 0;
      while i < |p|
        invariant 0 <= i <= |p|
        invariant usage == MergeAll(old(usage), userId, Triples(p[..i]))
      {
        MergeDay(userId, p[i].date, p[i].domains);
        MergeAllConcat(old(usage), userId, Triples(p[..i]), DayTriples(p[i].date, p[i].domains));
        TriplesOfPrefix(p, i);
        i := i + 1;
      }
      assert p[..i] == p;
    }

    /** The body of the inner loop: increment the first matching record, or push a new one. */
    method MergeTriple(userId: string, date: string, domain: string, seconds: int)
      modifies this`usage
      ensures usage == MergeOne(old(usage), userId, Triple(date, domain, seconds))
    {
      var k := FirstMatch(usage, userId, date, domain);
      if k < |usage| {
        usage := usage[k := usage[k].(seconds := usage[k].seconds + seconds)];
      } else {
        usage := usage + [Record(userId, date, domain, seconds)];
      }
    }

    /** One pass of the inner loop of `POST /api/usage`: the domains of one date, in order. */
    method MergeDay(userId: string, date: string, domains: seq<DomainEntry>)
      modifies this`usage
      ensures usage == MergeAll(old(usage), userId, DayTriples(date, domains))
    {
      var j := 0;
      while j < |domains|
        invariant 0 <= j <= |domains|
        invariant usage == MergeAll(old(usage), userId, DayTriples(date, domains[..j]))
      {
        var domain := domains[j].domain;
        var seconds := ToSeconds(domains[j].value);
        MergeTriple(userId, date, domain, seconds);
        MergeDayStep(old(usage), userId, date, domains, j);
        j := j + 1;
      }
      assert domains[..j] == domains;
    }

    /**
     * `GET /api/dashboard`: `dayKeys` are the seven date keys of the window
     * ending today, earliest first. Each starts at zero, and each of the
     * user's records dated inside the window adds its seconds to one bucket.
     */
    method Dashboard(userId: string, dayKeys: seq<string>) returns (response: DashboardResponse)
      ensures userId == "" <==> response.MissingUser?
      ensures response.Days? ==> response.data.Keys == set d | d in dayKeys
      ensures response.Days? ==> forall d :: d in response.data ==> response.data[d] == BucketsOf(usage, userId, d)
      ensures response.Days? && |dayKeys| == 7 && (forall i, j :: 0 <= i < j < 7 ==> dayKeys[i] != dayKeys[j]) ==>
        |response.data| == 7
    {
      if userId == "" {
        return MissingUser;
      }
      var days := ZeroWindow(dayKeys);
      days := TallyUser(usage, userId, days);
      if |dayKeys| == 7 && (forall i, j :: 0 <= i < j < 7 ==> dayKeys[i] != dayKeys[j]) {
        SevenDistinctKeysSevenDays(dayKeys);
        assert |days| == |days.Keys|;
      }
      return Days(days);
    }
  }

  /** The dashboard's `days` before any record is counted: every key of the window at zero. */
  method ZeroWindow(dayKeys: seq<string>) returns (days: map<string, Buckets>)
    ensures days.Keys == set d | d in dayKeys
    ensures forall d :: d in days ==> days[d] == Buckets(0, 0, 0)
  {
    days := map[];
    var i := 0;
    while i < |dayKeys|
      invariant 0 <= i <= |dayKeys|
      invariant days.Keys == set d | d in dayKeys[..i]
      invariant forall d :: d in days ==> days[d] == Buckets(0, 0, 0)
    {
      days := days[dayKeys[i] := Buckets(0, 0, 0)];
      assert dayKeys[..i + 1] == dayKeys[..i] + [dayKeys[i]];
      i := i + 1;
    }
    assert dayKeys[..i] == dayKeys;
  }

  /**
   * The dashboard's pass over the stored records: each of `userId`'s records
   * whose date is a key of `days` adds its seconds to that day's bucket.
   */
  method TallyUser(recs: seq<Record>, userId: string, days0: map<string, Buckets>) returns (days: map<string, Buckets>)
    requires forall d :: d in days0 ==> days0[d] == Buckets(0, 0, 0)
    ensures days.Keys == days0.Keys
    ensures forall d :: d in days ==> days[d] == BucketsOf(recs, userId, d)
  {
    days := days0;
    var n := 0;
    while n < |recs|
      invariant 0 <= n <= |recs|
      invariant days.Keys == days0.Keys
      invariant forall d :: d in days ==> days[d] == BucketsOf(recs[..n], userId, d)
    {
      TallyStep(recs, n, userId, days);
      var u := recs[n];
      if u.userId == userId && u.date in days {
        days := days[u.date := AddTo(days[u.date], DashboardCategory(u.domain), u.seconds)];
      }
      n := n + 1;
    }
    assert recs[..n] == recs;
  }

  /** The seven keys of the window give exactly seven days. */
  lemma SevenDistinctKeysSevenDays(dayKeys: seq<string>)
    requires |dayKeys| == 7
    requires forall i, j :: 0 <= i < j < 7 ==> dayKeys[i] != dayKeys[j]
    ensures |set d | d in dayKeys| == 7
  {
    var s := set d | d in dayKeys;
    assert s == {dayKeys[0], dayKeys[1], dayKeys[2], dayKeys[3], dayKeys[4], dayKeys[5], dayKeys[6]};
  }
}

=== FILE: wrappers.dfy ===
/** An optional value: a JavaScript value that may be `undefined` or `null`. */
module Wrappers {
  datatype Option<T> = None | Some(value: T)
}
